=== FILE: README.md ===
# MapleProject automation scripts — a Dafny model

This project models the decision and data-shaping logic of two game-client
automation scripts: the minimap viewer (`Constant_minimap.py`) and the
scripted login (`login.py`). Both scripts are glue over a screen grabber, an
image library and a UI-automation library. Every result those libraries
produce is a parameter of the model:

- contour bounding boxes are a `seq<BoundingRect>`;
- the file probe and image reader are `string -> bool` and `string -> Option<Template>`;
- resizing and template matching at one scale is a `Matcher` returning
  `ResizeFailed`, `MatchFailed` or `Matched(points)`;
- locating an image on screen is a `Locator` (`(nat, string) -> bool`), indexed by the
  character position the lookup is made for, since every lookup grabs the screen afresh;
- each attempt of a polling loop is one entry of a `seq<bool>`;
- the TOTP generator is a `string -> Option<string>`.

Python dicts iterate in insertion order. A dict is therefore modelled as the
sequence of its key/value pairs (`Dict.Entry`). Nothing in that type stops a
key from repeating. Where the model needs keys to be distinct, it requires
`Dict.UniqueKeys`. `Templates.LoadedKinds` establishes this for the loaded
templates, and `Detection.DetectObjectsUniqueKeys` carries it over to the
detection dict.

Modules:

- `Region`: minimap region selection from contour boxes.
- `Templates`: template loading, one entry per configured kind.
- `Detection`: multi-scale matching aggregated per kind. Also the flat
  detection list (kind order, then position order) that the overlay and the
  export both walk.
- `Annotate`: the colour map and the box/label drawing calls.
- `Export`: the document the capture loop builds for `minimap_data.json`.
- `Capture`: one capture cycle, composing the above.
- `Chars`: the special-character set, the character-class predicates and `str.strip()`.
- `Credentials`: the stored record, the prompt decision and the OTP guard.
- `SecondPassword`: the entry plan for the second password, as a sequence of `Action`s.
- `OtpEntry`: the one-time-password step of the login.
- `Login`: the keyboard and mouse steps (`Action`) shared by the login entries.
- `Polling`: the bounded locate-retry loops.

Observations the model makes explicit:

- A second password that satisfies neither character-class predicate gets
  only the final Enter (the last case of `SecondPassword.SecondPasswordEntry`).
  Such a password has no letter or digit and at least one character outside
  the special set, e.g. `"#$ %"`. A password of spaces is the simplest case
  (`SecondPassword.SpacesEnterNothing`).
- The `found` flags of the three polling loops are computed but never read
  afterwards. The login proceeds the same way whether or not the screen
  appeared.
- The colour map names `npc`, which is not a configured kind. The configured
  kinds `guild` and `people` are drawn in the default green.
- A missing template is logged as an error at load time
  (`Constant_minimap.py:69-74`) and as a warning on every cycle (`:123`).
  Logging is not modelled.
- The points come from `np.where` (`Constant_minimap.py:147-149`), so each
  record's `x` and `y` are numpy integers, which `json.dump` (`:253`) does not
  serialise. As the code reads, writing the snapshot raises as soon as one
  object was detected, and nothing in the capture loop catches it. The model
  is the document the loop builds, not what reaches the file.
- `get_current_otp` (`login.py:44-54`) is never called: the login applies the
  same guard inline (`login.py:273-292`). `OtpEntry.OtpEntryAgreesWithGetCurrentOtp`
  shows that the two agree.

## Model

Some functions are described by lemma rows rather than rows of their own:

- `Detection.DetectObjects` (`detect_objects`) is pinned down by `DetectObjectsSound`, `DetectObjectsComplete`, `DetectObjectsOrder`, `DetectObjectsUniqueKeys` and `MissingTemplateSkipped`.
- `Annotate.KindColour` (the colour chain at `Constant_minimap.py:164-172`) is described by `ColourMap`.
- `SecondPassword.EntryBeforeEnter` (the dispatch at `login.py:410-489`) is described by `SecondPasswordEntry`, which appends the final Enter to it.
- `Capture.Cycle` (one iteration of the loop at `Constant_minimap.py:231-250`, after the frame is grabbed) is described by `SnapshotCountsEveryMatch`, `MissingKindNeverExported` and `OverlayUsesTemplateSizes`.

| member | source | states |
|---|---|---|
| `Region.AspectRatioInIntegers` | Constant_minimap.py:93-94 | for a box at least one pixel high, `2.0 < w/h < 4.0` holds exactly when `2h < w < 4h` |
| `Region.DetectMinimapRegion` | Constant_minimap.py:91-103 | the result is the first contour passing the aspect and size filter, moved by the initial top/left with its width and height kept; if none passes (including no contours at all), the initial region unchanged; a selected region is strictly inside the size and aspect bounds |
| `Templates.LoadTemplates` | Constant_minimap.py:64-76 | one entry per configured kind, in configuration order; an entry holds a template iff the file exists and decodes, and then it is the decoded image |
| `Templates.LoadedKinds` | Constant_minimap.py:43-49 | whatever the file system holds, the loaded dict has exactly the configured kinds (friend, player, rune, guild, people), in configuration order, no kind twice |
| `Detection.ScaleOrder` | Constant_minimap.py:136-153 | a kind's positions are those of scale 0.8, then 1.0, then 1.2 |
| `Detection.FailedScaleAddsNothing` | Constant_minimap.py:138-153 | a scale whose resize or match fails contributes no position and the later scales are still tried |
| `Detection.DetectObjectsSound` | Constant_minimap.py:121-155 | every entry of the detection dict belongs to a kind with a template and holds that template's matches over all scales |
| `Detection.DetectObjectsComplete` | Constant_minimap.py:121-155 | every kind with a template appears in the detection dict, even with no position |
| `Detection.DetectObjectsOrder` | Constant_minimap.py:121-155 | the detection dict lists kinds in the templates' order |
| `Detection.DetectObjectsUniqueKeys` | Constant_minimap.py:155 | distinct template kinds give distinct detection kinds |
| `Detection.MissingTemplateSkipped` | Constant_minimap.py:121-124 | a kind whose template is None is never a key of the detection dict |
| `Detection.FlattenAt` | Constant_minimap.py:244-250 | position `j` of the `i`-th kind is the detection right after all positions of the earlier kinds |
| `Detection.FlattenMembership` | Constant_minimap.py:244-250 | a detection is in the flat list iff its kind's entry holds its position |
| `Export.ExportSnapshot` | Constant_minimap.py:237-250 | the nested append loop builds the reference snapshot: placeholder player (100, 50) and one record per position, as many as all kinds' positions together |
| `Export.SnapshotRecordAt` | Constant_minimap.py:244-250 | position `j` of the `i`-th kind is exported as `{type: kind, x, y}` right after the records of all earlier kinds |
| `Export.AppendKind` | Constant_minimap.py:245-250 | the inner loop appends, after the records already built, one `{type, x, y}` record per position of the kind, in position order |
| `Export.ExportCountPerKind` | Constant_minimap.py:244-250 | the snapshot holds exactly as many records of a kind as that kind has positions, and none of an absent kind |
| `Annotate.ColourMap` | Constant_minimap.py:164-172 | friend, npc, player and rune get pairwise different colours, none of them green; every other kind is green |
| `Annotate.BoxSizeCases` | Constant_minimap.py:174-179 | a kind with a loaded template gets a box of the template's width and height; a kind whose template is None gets 20 by 20 |
| `Annotate.DrawOneAnnotates` | Constant_minimap.py:181-197 | one detection gets a thickness-2 box from its position spanning the box size, and its kind's name at 10 pixels above, both in the kind's colour |
| `Annotate.DrawAllAt` | Constant_minimap.py:181-197 | detection `n` of a list is drawn at drawing calls `2n` (box) and `2n + 1` (label) |
| `Annotate.DrawDetections` | Constant_minimap.py:163-197 | the overlay has two drawing calls per detected position |
| `Annotate.DrawnAt` | Constant_minimap.py:163-197 | position `j` of the `i`-th kind gets its box and label right after those of all earlier positions |
| `Capture.DetectedTotal` | Constant_minimap.py:121-155 | the detection dict holds as many positions as all loaded templates matched over all scales |
| `Capture.SnapshotCountsEveryMatch` | Constant_minimap.py:231-250 | in one cycle, the built list has one record and the overlay two calls per match over every template and scale |
| `Capture.MissingKindNeverExported` | Constant_minimap.py:121-250 | a kind whose template is None never appears in the built records |
| `Capture.OverlayUsesTemplateSizes` | Constant_minimap.py:174-185 | in a cycle every drawn box has the native size of a loaded template of its kind; the 20 by 20 default never applies |
| `Chars.SpecialCharsContents` | login.py:58 | the special set has 33 characters, the backslash twice, the backtick and both quotes included, the space not |
| `Chars.ContainsOnlySpecialCharacters` | login.py:56-59 | true iff every character is in the special set, so true of the empty string |
| `Chars.ContainsLettersOrNumbers` | login.py:61-63 | true iff some character is a letter or digit, so false of the empty string |
| `Chars.HasNonAlnum` | login.py:418 | true iff some character is neither a letter nor a digit |
| `Chars.SpecialIsNotAlnum` | login.py:56-63 | no special character is a letter or digit |
| `Chars.NeverBoth` | login.py:56-63 | no text is both only-special and contains a letter or digit |
| `Chars.Strip` | login.py:151 | the result is a slice of the input with only whitespace removed on either side, neither starting nor ending with whitespace |
| `Chars.StripIdempotent` | login.py:151 | stripping a stripped text changes nothing |
| `Credentials.SaveCredentials` | login.py:24-33 | the saved object has exactly the four credential fields |
| `Credentials.LoadCredentials` | login.py:36-42 | without a credentials file all four values are None |
| `Credentials.SaveLoadRoundTrip` | login.py:24-42 | loading what was saved gives back the same four values, absent ones included |
| `Credentials.ResolveCredentials` | login.py:141-153 | prompts iff username, password or second password is None or empty; then the three answers replace them, the OTP secret is asked (and stripped) iff it is blank too, otherwise kept, and what is saved loads back as the credentials used; without prompting nothing changes and nothing is saved |
| `Credentials.GetCurrentOtp` | login.py:44-54 | a None or empty secret gives None; any other secret gives the generator's result, None when it fails |
| `SecondPassword.MixedKeys` | login.py:426-458 | one step per character, in order: a letter or digit is a key click (or a manual-click wait when that lookup of its image fails), every other character is typed; each character's lookup is its own |
| `SecondPassword.KeyboardKeys` | login.py:70-103 | one key step per character, in order, never typing; clicked iff that character's lookup of the key's image succeeds |
| `SecondPassword.RepeatedKeyLookedUpAfresh` | login.py:426-458 | a key that occurs twice is looked up twice: it can be clicked the first time and left to the user the second |
| `SecondPassword.TypeUsingOnscreenKeyboard` | login.py:65-133 | all key steps, then exactly one OK step |
| `SecondPassword.MixedAgreesWithKeyboard` | login.py:426-489 | on a password of letters and digits only, the mixed path and the keyboard path produce the same key steps |
| `SecondPassword.SecondPasswordEntry` | login.py:410-492 | only-special passwords (the empty one included) are typed in one write; ones with a letter or digit and another character take the mixed path and one OK step; non-empty all-alphanumeric ones go through the on-screen keyboard; all others enter nothing; every outcome ends with exactly one Enter |
| `SecondPassword.SpacesEnterNothing` | login.py:410-492 | every non-empty password of spaces enters nothing before the final Enter |
| `OtpEntry.OtpEntry` | login.py:273-292 | a blank secret leaves the user to type the code, and nothing else happens; Enter is pressed iff the secret is non-blank and the generator succeeds; when the generator fails on a non-blank secret nothing at all happens, not even the manual-entry wait; never more than two steps |
| `OtpEntry.OtpEntryAgreesWithGetCurrentOtp` | login.py:44-54 | the login submits a code iff `get_current_otp` would return one, types exactly that code, and types nothing when it would return None |
| `Polling.Poll` | login.py:184-203 | found iff some attempt within the limit succeeds; it stops at the first success, otherwise makes exactly `limit` attempts, and pauses after every failed attempt only |
| `Polling.PollLoginScreen` | login.py:183-203 | the login-screen wait is found iff one of five attempts succeeds; when found, the last attempt is the first success; otherwise all five are made |
| `Polling.PollOtpDialog` | login.py:252-271 | the OTP-dialog wait is found iff one of three attempts succeeds; when found, the last attempt is the first success; otherwise all three are made |
| `Polling.PollSecondPasswordDialog` | login.py:388-407 | the second-password-dialog wait is found iff one of three attempts succeeds; when found, the last attempt is the first success; otherwise all three are made |

## Left out

- Screen capture, the game-window lookup and the initial region derived from the window position (`Constant_minimap.py:202-216`, `:227-228`): foreign I/O. `Region.DetectMinimapRegion` takes the initial region as a parameter.
- Grayscale conversion, thresholding, contour extraction and `boundingRect` (`Constant_minimap.py:82-92`): float image processing in an external library. The bounding boxes are an input.
- Resizing, `matchTemplate` and the `> 0.99999` cut-off (`Constant_minimap.py:139-149`): external numerics. They are the `Matcher` oracle.
- Region.AspectRatioInIntegers: the source divides in floating point, the model divides exactly. The two agree for every box of realistic size.
- Detection.DetectObjectsSound: a matching step that raises after appending some points keeps them in the source. The model drops the whole scale's points when the match fails.
- The grayscale branches of `detect_objects` (`Constant_minimap.py:116-119`, `:127-130`): pixel-format handling only.
- Drawing onto pixels, the Tk image label, the capture thread, the stop flag, `join` and the sleep interval (`Constant_minimap.py:55-56`, `:225`, `:256-274`): UI and concurrency. The overlay is a list of drawing calls.
- Writing `minimap_data.json` and reading or writing the credentials file: I/O. The model produces the document and the stored object. `Export` models the `detected_objects` list the loop builds. As the code reads, writing that list fails whenever it is non-empty, because its coordinates are numpy integers that `json.dump` rejects (`Constant_minimap.py:147-149`, `:252-253`). The model does not show this failure.
- Logging configuration and all log and print output: I/O.
- Chars.ContainsLettersOrNumbers: `str.isalnum` is modelled for ASCII letters and digits. Non-ASCII letters and digits, which Python also accepts, are treated as not alphanumeric.
- Chars.HasNonAlnum: it uses the same ASCII `IsAlnum`, so a non-ASCII letter or digit counts as a non-alphanumeric character.
- SecondPassword.MixedKeys: it uses the same ASCII `IsAlnum`, so a non-ASCII letter or digit is typed instead of being clicked.
- SecondPassword.SecondPasswordEntry: it uses the same ASCII `IsAlnum` to choose a path. For example, Python sends `"é1"` to the on-screen keyboard (`login.py:489`), but the model sends it to the mixed path.
- Chars.Strip: only ASCII whitespace is stripped. Python also strips Unicode spaces.
- Credentials.LoadCredentials: stored values are strings or null. Other JSON types are not modelled.
- TOTP generation (`pyotp`) and the runtime `pip install` (`login.py:9-15`): foreign code. The generator is a parameter.
- The rest of `launch_maplesea` (`login.py:155-381`) apart from the three waits and the one-time-password step: the Start menu, username and password typing, and server and channel selection. These steps branch only on whether one image file exists and is located. If it is, it is clicked. If it is not, the step is skipped for the ID field (`login.py:206-221`, where the username is then typed wherever the focus is), or the user is given time to act for the server and the channel. The server step presses Enter on every branch (`login.py:317`, `:327`, `:337`, `:348`). These steps are not modelled.
- All `time.sleep` durations and the pyautogui calls themselves: timing and UI automation. A click or a wait appears only as an `Action`.

=== FILE: annotate.dfy ===
/**
  The overlay drawn on each captured frame: per detection a two-pixel box the
  size of the kind's template and the kind's name just above it, in the kind's
  colour.
 */
module Annotate {
  import opened Wrappers
  import opened Dict
  import opened Templates
  import opened Detection

  /** A colour in the image library's blue, green, red channel order. */
  datatype Colour = Colour(b: int, g: int, r: int)

  /** Green: the colour of every kind without a colour of its own. */
  const DefaultColour: Colour := Colour(0, 255, 0)

  /** The kinds that have a colour of their own. */
  const NamedKinds: set<string> := {"friend", "npc", "player", "rune"}

  /** The side of the box drawn for a kind that has no template. */
  const DefaultBoxSide: nat := 20

  /** The vertical distance from a box's top-left corner up to its label. */
  const LabelOffset: int := 10

  function KindColour(kind: string): Colour {
    if kind == "friend" then Colour(255, 0, 0)
    else if kind == "npc" then Colour(0, 255, 255)
    else if kind == "player" then Colour(0, 0, 255)
    else if kind == "rune" then Colour(128, 0, 128)
    else DefaultColour
  }

  /** One drawing call on the frame. */
  datatype DrawOp =
    | Rectangle(topLeft: Point, bottomRight: Point, colour: Colour, thickness: nat)
    | Label(text: string, at: Point, colour: Colour)

  /** The box size (width, height) for a kind: its template's native size, or
      the default square when the kind has no loaded template. */
  function BoxSize(templates: seq<Entry<Option<Template>>>, kind: string): (nat, nat) {
    var stored := Get(templates, kind);
    if stored.Some? && stored.value.Some? then (stored.value.value.width, stored.value.value.height)
    else (DefaultBoxSide, DefaultBoxSide)
  }

  /** The box and the label for one detection. */
  function DrawOne(det: Detection, templates: seq<Entry<Option<Template>>>): seq<DrawOp> {
    var (w, h) := BoxSize(templates, det.kind);
    var colour := KindColour(det.kind);
    [ Rectangle(det.at, Point(det.at.x + w, det.at.y + h), colour, 2),
      Label(det.kind, Point(det.at.x, det.at.y - LabelOffset), colour) ]
  }

  /** The box and label of detection `det`, with box size `size`. */
  ghost predicate Annotates(box: DrawOp, caption: DrawOp, det: Detection, size: (nat, nat)) {
    && box.Rectangle?
    && box.thickness == 2
    && box.topLeft == det.at
    && box.bottomRight.x - box.topLeft.x == size.0
    && box.bottomRight.y - box.topLeft.y == size.1
    && box.colour == KindColour(det.kind)
    && caption == Label(det.kind, Point(det.at.x, det.at.y - 10), box.colour)
  }

  /** All drawing calls for a list of detections, two per detection, in order. */
  function DrawAll(ds: seq<Detection>, templates: seq<Entry<Option<Template>>>): (ops: seq<DrawOp>)
    ensures |ops| == 2 * |ds|
  {
    if ds == [] then [] else DrawOne(ds[0], templates) + DrawAll(ds[1..], templates)
  }

  /** The drawing calls for one detection are its box and its label. */
  lemma DrawOneAnnotates(det: Detection, templates: seq<Entry<Option<Template>>>)
    ensures Annotates(DrawOne(det, templates)[0], DrawOne(det, templates)[1], det, BoxSize(templates, det.kind))
  {
  }

  /** Slots `2n` and `2n + 1` of the drawing calls are those of detection `n`. */
  lemma {:induction false} DrawAllSlot(ds: seq<Detection>, templates: seq<Entry<Option<Template>>>, n: int)
    requires 0 <= n < |ds|
    ensures DrawAll(ds, templates)[2 * n] == DrawOne(ds[n], templates)[0]
    ensures DrawAll(ds, templates)[2 * n + 1] == DrawOne(ds[n], templates)[1]
  {
    var ops := DrawAll(ds, templates);
    var head := DrawOne(ds[0], templates);
    assert ops == head + DrawAll(ds[1..], templates);
    if n > 0 {
      DrawAllSlot(ds[1..], templates, n - 1);
      assert ds[1..][n - 1] == ds[n];
    }
  }

  /** Detection `n` owns slots `2n` and `2n + 1` of the drawing calls. */
  lemma DrawAllAt(ds: seq<Detection>, templates: seq<Entry<Option<Template>>>, n: int)
    requires 0 <= n < |ds|
    ensures Annotates(DrawAll(ds, templates)[2 * n], DrawAll(ds, templates)[2 * n + 1], ds[n], BoxSize(templates, ds[n].kind))
  {
    DrawAllSlot(ds, templates, n);
    DrawOneAnnotates(ds[n], templates);
  }

  /** The overlay for a dict of detections, walked in kind then position order. */
  function DrawDetections(detections: seq<Entry<seq<Point>>>, templates: seq<Entry<Option<Template>>>)
    : (ops: seq<DrawOp>)
    ensures |ops| == 2 * TotalPositions(detections)
  {
    DrawAll(Flatten(detections), templates)
  }

  /** Position `j` of the `i`-th kind gets its box and label at slots `2n` and
      `2n + 1`, where `n` counts the positions of the kinds before it. */
  lemma DrawnAt(detections: seq<Entry<seq<Point>>>, templates: seq<Entry<Option<Template>>>, i: int, j: int)
    requires 0 <= i < |detections| && 0 <= j < |detections[i].value|
    ensures var n := TotalPositions(detections[..i]) + j;
            var ops := DrawDetections(detections, templates);
            && 2 * n + 1 < |ops|
            && Annotates(ops[2 * n], ops[2 * n + 1], Detection(detections[i].key, detections[i].value[j]),
                         BoxSize(templates, detections[i].key))
  {
    FlattenAt(detections, i, j);
    DrawAllAt(Flatten(detections), templates, TotalPositions(detections[..i]) + j);
  }

  /** The four named kinds have pairwise different colours, none of them the
      default; every other kind is drawn in the default colour. */
  lemma ColourMap(kind: string)
    ensures kind in NamedKinds <==> KindColour(kind) != DefaultColour
    ensures forall a, b :: a in NamedKinds && b in NamedKinds && a != b ==> KindColour(a) != KindColour(b)
  {
  }

  /** A kind with a loaded template gets a box of the template's native size;
      one without gets the 20 by 20 default. */
  lemma BoxSizeCases(templates: seq<Entry<Option<Template>>>, i: int)
    requires UniqueKeys(templates) && 0 <= i < |templates|
    ensures templates[i].value.Some? ==>
              BoxSize(templates, templates[i].key) == (templates[i].value.value.width, templates[i].value.value.height)
    ensures templates[i].value.None? ==> BoxSize(templates, templates[i].key) == (20, 20)
  {
    GetAt(templates, i);
  }
}

=== FILE: capture.dfy ===
/**
  One capture cycle after the frame is grabbed: detect, draw the overlay and
  build the snapshot, all from the same dict of detections.
 */
module Capture {
  import opened Wrappers
  import opened Dict
  import opened Templates
  import opened Detection
  import opened Annotate
  import opened Export

  datatype CycleOutput = CycleOutput(snapshot: Snapshot, overlay: seq<DrawOp>)

  function Cycle(templates: seq<Entry<Option<Template>>>, matcher: Matcher): CycleOutput {
    var detections := DetectObjects(templates, matcher);
    CycleOutput(SnapshotOf(detections), DrawDetections(detections, templates))
  }

  /** The number of matches above threshold over all loaded templates and all
      scales. */
  function MatchTotal(templates: seq<Entry<Option<Template>>>, matcher: Matcher): nat {
    if templates == [] then 0
    else
      (if templates[0].value.Some? then |MatchScales(templates[0].value.value, Scales, matcher)| else 0)
      + MatchTotal(templates[1..], matcher)
  }

  lemma {:induction false} DetectedTotal(templates: seq<Entry<Option<Template>>>, matcher: Matcher)
    ensures TotalPositions(DetectObjects(templates, matcher)) == MatchTotal(templates, matcher)
  {
    if templates != [] {
      DetectedTotal(templates[1..], matcher);
      var rest := DetectObjects(templates[1..], matcher);
      if templates[0].value.Some? {
        var r := DetectObjects(templates, matcher);
        assert r[1..] == rest;
      }
    }
  }

  /** The snapshot has one record per match, over every template and scale. */
  lemma SnapshotCountsEveryMatch(templates: seq<Entry<Option<Template>>>, matcher: Matcher)
    ensures |Cycle(templates, matcher).snapshot.detectedObjects| == MatchTotal(templates, matcher)
    ensures |Cycle(templates, matcher).overlay| == 2 * MatchTotal(templates, matcher)
  {
    DetectedTotal(templates, matcher);
  }

  /** A kind whose template is missing is never reported in the snapshot. */
  lemma MissingKindNeverExported(templates: seq<Entry<Option<Template>>>, matcher: Matcher, i: int)
    requires UniqueKeys(templates)
    requires 0 <= i < |templates| && templates[i].value.None?
    ensures forall rec :: rec in Cycle(templates, matcher).snapshot.detectedObjects ==> rec.kind != templates[i].key
  {
    var d := DetectObjects(templates, matcher);
    var records := Cycle(templates, matcher).snapshot.detectedObjects;
    MissingTemplateSkipped(templates, matcher, i);
    forall rec | rec in records
      ensures rec.kind != templates[i].key
    {
      var n :| 0 <= n < |records| && records[n] == rec;
      var det := Flatten(d)[n];
      FlattenMembership(d, det);
      var a :| 0 <= a < |d| && d[a].key == det.kind && det.at in d[a].value;
      assert Keys(d)[a] == rec.kind;
    }
  }

  /** Every box drawn in a cycle has the native size of its kind's template:
      the default box size never applies to a detected kind. */
  lemma OverlayUsesTemplateSizes(templates: seq<Entry<Option<Template>>>, matcher: Matcher, n: int)
    requires UniqueKeys(templates)
    requires 0 <= n < TotalPositions(DetectObjects(templates, matcher))
    ensures var det := Flatten(DetectObjects(templates, matcher))[n];
            exists i :: && 0 <= i < |templates| && templates[i].key == det.kind && templates[i].value.Some?
                        && Annotates(Cycle(templates, matcher).overlay[2 * n], Cycle(templates, matcher).overlay[2 * n + 1], det,
                                     (templates[i].value.value.width, templates[i].value.value.height))
  {
    var d := DetectObjects(templates, matcher);
    var det := Flatten(d)[n];
    assert det in Flatten(d);
    FlattenMembership(d, det);
    var a :| 0 <= a < |d| && d[a].key == det.kind && det.at in d[a].value;
    DetectObjectsSound(templates, matcher, a);
    var i :| 0 <= i < |templates| && templates[i].key == d[a].key && templates[i].value.Some?;
    BoxSizeCases(templates, i);
    DrawAllAt(Flatten(d), templates, n);
  }
}

=== FILE: chars.dfy ===
/** Character classes used when entering passwords, and `str.strip()`. */
module Chars {

  /** The special characters a second password may be typed with directly.
      In the literal at login.py:58, `\\` is one backslash and `\``, not a
      recognised escape, stays a backslash followed by a backtick: the
      backslash occurs twice. */
  const SpecialChars: string := "!@#$%^&*()-_=+[]{}|;:'\",.<>/?\\\\`~"

  /** 33 characters: the backslash twice, the backtick and both quotes
      included; the space is not among them. */
  lemma SpecialCharsContents()
    ensures |SpecialChars| == 33
    ensures SpecialChars[29] == '\\' && SpecialChars[30] == '\\' && SpecialChars[31] == '`'
    ensures '"' in SpecialChars && '\'' in SpecialChars
    ensures ' ' !in SpecialChars
  {
    assert SpecialChars[21] == '\'' && SpecialChars[22] == '"';
    if ' ' in SpecialChars {
      SpecialIsPunctuation(' ');
    }
  }

  /** ASCII punctuation: the printable characters that are neither letters,
      digits nor the space. */
  predicate IsPunctuation(c: char) {
    ('!' <= c <= '/') || (':' <= c <= '@') || ('[' <= c <= '`') || ('{' <= c <= '~')
  }

  lemma SpecialIsPunctuation(c: char)
    requires c in SpecialChars
    ensures IsPunctuation(c)
  {
    assert forall i :: 0 <= i < |SpecialChars| ==> IsPunctuation(SpecialChars[i]);
  }

  /** `str.isalnum()` on one character, for ASCII letters and digits. */
  predicate IsAlnum(c: char) {
    ('a' <= c <= 'z') || ('A' <= c <= 'Z') || ('0' <= c <= '9')
  }

  /** `str.isspace()` on one character, for the ASCII whitespace characters. */
  predicate IsSpace(c: char) {
    c == ' ' || ('\t' <= c <= '\r') || ('\U{1c}' <= c <= '\U{1f}')
  }

  /** Every character of `text` is special; true of the empty string. */
  function ContainsOnlySpecialCharacters(text: string): (b: bool)
    ensures b <==> forall i :: 0 <= i < |text| ==> text[i] in SpecialChars
  {
    if text == [] then true
    else
      var rest := ContainsOnlySpecialCharacters(text[1..]);
      assert forall i :: 1 <= i < |text| ==> text[i] == text[1..][i - 1];
      text[0] in SpecialChars && rest
  }

  /** Some character of `text` is a letter or a digit; false of the empty string. */
  function ContainsLettersOrNumbers(text: string): (b: bool)
    ensures b <==> exists i :: 0 <= i < |text| && IsAlnum(text[i])
  {
    if text == [] then false
    else
      var rest := ContainsLettersOrNumbers(text[1..]);
      assert forall i :: 1 <= i < |text| ==> text[i] == text[1..][i - 1];
      IsAlnum(text[0]) || rest
  }

  /** Some character of `text` is neither a letter nor a digit. */
  function HasNonAlnum(text: string): (b: bool)
    ensures b <==> exists i :: 0 <= i < |text| && !IsAlnum(text[i])
  {
    if text == [] then false
    else
      var rest := HasNonAlnum(text[1..]);
      assert forall i :: 1 <= i < |text| ==> text[i] == text[1..][i - 1];
      !IsAlnum(text[0]) || rest
  }

  /** No special character is a letter or a digit. */
  lemma SpecialIsNotAlnum(c: char)
    requires c in SpecialChars
    ensures !IsAlnum(c)
  {
    SpecialIsPunctuation(c);
  }

  /** No text is both only special characters and holds a letter or digit. */
  lemma NeverBoth(text: string)
    ensures !(ContainsOnlySpecialCharacters(text) && ContainsLettersOrNumbers(text))
  {
    if ContainsLettersOrNumbers(text) {
      var i :| 0 <= i < |text| && IsAlnum(text[i]);
      if text[i] in SpecialChars {
        SpecialIsNotAlnum(text[i]);
      }
    }
  }

  /** The text with leading whitespace removed. */
  function StripLeft(s: string): (r: string)
    ensures |r| <= |s| && r == s[|s| - |r|..]
    ensures r == [] || !IsSpace(r[0])
    ensures forall i :: 0 <= i < |s| - |r| ==> IsSpace(s[i])
  {
    if s != [] && IsSpace(s[0]) then StripLeft(s[1..]) else s
  }

  /** The text with trailing whitespace removed. */
  function StripRight(s: string): (r: string)
    ensures |r| <= |s| && r == s[..|r|]
    ensures r == [] || !IsSpace(r[|r| - 1])
    ensures forall i :: |r| <= i < |s| ==> IsSpace(s[i])
  {
    if s != [] && IsSpace(s[|s| - 1]) then StripRight(s[..|s| - 1]) else s
  }

  /** `r` is the slice `s[a..b]` and everything of `s` outside it is whitespace. */
  ghost predicate TrimmedSlice(s: string, r: string, a: int, b: int) {
    && 0 <= a <= b <= |s|
    && r == s[a..b]
    && (forall i :: 0 <= i < a ==> IsSpace(s[i]))
    && (forall i :: b <= i < |s| ==> IsSpace(s[i]))
  }

  lemma StripSlice(s: string, left: string, r: string)
    requires |left| <= |s| && left == s[|s| - |left|..]
    requires forall i :: 0 <= i < |s| - |left| ==> IsSpace(s[i])
    requires |r| <= |left| && r == left[..|r|]
    requires forall i :: |r| <= i < |left| ==> IsSpace(left[i])
    ensures TrimmedSlice(s, r, |s| - |left|, |s| - |left| + |r|)
  {
    var a := |s| - |left|;
    var b := a + |r|;
    assert s[a..b] == r by {
      assert s[a..b] == s[a..][..|r|];
    }
    forall i | b <= i < |s|
      ensures IsSpace(s[i])
    {
      assert s[i] == left[i - a];
    }
  }

  /** `str.strip()`: the longest slice of `s` that neither starts nor ends with
      whitespace, removing only whitespace around it. */
  function Strip(s: string): (r: string)
    ensures exists a, b :: TrimmedSlice(s, r, a, b)
    ensures r == [] || (!IsSpace(r[0]) && !IsSpace(r[|r| - 1]))
  {
    var left := StripLeft(s);
    var r := StripRight(left);
    StripSlice(s, left, r);
    r
  }

  /** Stripping twice is stripping once. */
  lemma StripIdempotent(s: string)
    ensures Strip(Strip(s)) == Strip(s)
  {
    var r := Strip(s);
    if r != [] {
      assert StripLeft(r) == r;
      assert StripRight(r) == r;
    }
  }
}

=== FILE: credentials.dfy ===
/**
  Login credentials: the stored record, the decision to prompt for them, and
  the guard in front of one-time-password generation.
 */
module Credentials {
  import opened Wrappers
  import opened Chars

  /** The four stored values; None stands for a missing key or a JSON null. */
  datatype Credentials = Credentials(
    username: Option<string>,
    password: Option<string>,
    secondPassword: Option<string>,
    otpSecret: Option<string>)

  /** What loading yields when there is no credentials file. */
  const NoCredentials: Credentials := Credentials(None, None, None, None)

  /** The stored JSON object: field name to string or null. */
  type JsonObject = map<string, Option<string>>

  /** Python's `not v` for a value that is a string or None. */
  predicate Blank(v: Option<string>) {
    v.None? || v.value == ""
  }

  /** The object written to the credentials file. */
  function SaveCredentials(c: Credentials): (doc: JsonObject)
    ensures doc.Keys == {"username", "password", "second_password", "otp_secret"}
  {
    map["username" := c.username, "password" := c.password,
        "second_password" := c.secondPassword, "otp_secret" := c.otpSecret]
  }

  /** `dict.get` on the stored object. */
  function Field(doc: JsonObject, name: string): Option<string> {
    if name in doc then doc[name] else None
  }

  /** The credentials read back; `file` is None when the file does not exist. */
  function LoadCredentials(file: Option<JsonObject>): (c: Credentials)
    ensures file.None? ==> c == NoCredentials
  {
    match file
    case None => NoCredentials
    case Some(doc) =>
      Credentials(Field(doc, "username"), Field(doc, "password"),
                  Field(doc, "second_password"), Field(doc, "otp_secret"))
  }

  /** Whatever is saved is loaded back unchanged, including absent values. */
  lemma SaveLoadRoundTrip(c: Credentials)
    ensures LoadCredentials(Some(SaveCredentials(c))) == c
  {
  }

  /** What the user would type at each prompt. */
  datatype Answers = Answers(username: string, password: string, secondPassword: string, otpSecret: string)

  /** The credentials the login goes on with, the object saved (None when
      nothing was prompted for and nothing saved), and whether the one-time
      password secret was asked for. */
  datatype Setup = Setup(credentials: Credentials, saved: Option<JsonObject>, askedOtp: bool)

  /** Prompts for all three passwords when any of them is blank, and then for
      the one-time-password secret only when that is blank too. */
  function ResolveCredentials(loaded: Credentials, answers: Answers): (r: Setup)
    ensures r.saved.Some? <==> Blank(loaded.username) || Blank(loaded.password) || Blank(loaded.secondPassword)
    ensures r.askedOtp <==> r.saved.Some? && Blank(loaded.otpSecret)
    ensures r.saved.None? ==> r.credentials == loaded
    ensures r.saved.Some? ==>
              && r.credentials.username == Some(answers.username)
              && r.credentials.password == Some(answers.password)
              && r.credentials.secondPassword == Some(answers.secondPassword)
              && LoadCredentials(r.saved) == r.credentials
    ensures r.askedOtp ==> r.credentials.otpSecret == Some(Strip(answers.otpSecret))
    ensures r.saved.Some? && !r.askedOtp ==> r.credentials.otpSecret == loaded.otpSecret
  {
    if Blank(loaded.username) || Blank(loaded.password) || Blank(loaded.secondPassword) then
      var askOtp := Blank(loaded.otpSecret);
      var otp := if askOtp then Some(Strip(answers.otpSecret)) else loaded.otpSecret;
      var c := Credentials(Some(answers.username), Some(answers.password), Some(answers.secondPassword), otp);
      SaveLoadRoundTrip(c);
      Setup(c, Some(SaveCredentials(c)), askOtp)
    else
      Setup(loaded, None, false)
  }

  /** The current one-time password, or None for a blank secret; `totp`
      stands for the generator and yields None when it fails. */
  function GetCurrentOtp(secret: Option<string>, totp: string -> Option<string>): (r: Option<string>)
    ensures Blank(secret) ==> r.None?
    ensures !Blank(secret) ==> r == totp(secret.value)
  {
    if Blank(secret) then None else totp(secret.value)
  }
}

=== FILE: detection.dfy ===
/**
  Multi-scale template matching, aggregated per object kind, and the flat list
  of detections that both the overlay and the exported snapshot walk through.
 */
module Detection {
  import opened Wrappers
  import opened Dict
  import opened Templates

  /** A pixel position `(x, y)` in the captured frame. */
  datatype Point = Point(x: int, y: int)

  /** What one scale produced: the resize failed, the match failed, or the
      match returned every location above the correlation threshold. */
  datatype ScaleResult = ResizeFailed | MatchFailed | Matched(points: seq<Point>)

  /** Resizing a template to a scale and matching it against the current
      frame; this stands for the image library and the frame itself. */
  type Matcher = (Template, real) -> ScaleResult

  /** The scale factors tried for every template, in order. */
  const Scales: seq<real> := [0.8, 1.0, 1.2]

  /** One detection: an object kind at a position. */
  datatype Detection = Detection(kind: string, at: Point)

  /** The points a scale adds to the kind's positions; a failure adds none. */
  function Yield(r: ScaleResult): seq<Point> {
    if r.Matched? then r.points else []
  }

  /** The positions found for template `t` over `scales`, in scale order. */
  function MatchScales(t: Template, scales: seq<real>, matcher: Matcher): seq<Point> {
    if scales == [] then [] else Yield(matcher(t, scales[0])) + MatchScales(t, scales[1..], matcher)
  }

  lemma {:induction false} MatchScalesAppend(t: Template, a: seq<real>, b: seq<real>, matcher: Matcher)
    ensures MatchScales(t, a + b, matcher) == MatchScales(t, a, matcher) + MatchScales(t, b, matcher)
  {
    if a == [] {
      assert a + b == b;
    } else {
      assert (a + b)[1..] == a[1..] + b;
      MatchScalesAppend(t, a[1..], b, matcher);
    }
  }

  /** A scale whose resize or match fails adds nothing, and the scales after
      it are still tried. */
  lemma FailedScaleAddsNothing(t: Template, before: seq<real>, s: real, after: seq<real>, matcher: Matcher)
    requires !matcher(t, s).Matched?
    ensures MatchScales(t, before + [s] + after, matcher)
         == MatchScales(t, before, matcher) + MatchScales(t, after, matcher)
  {
    var withS := before + [s];
    var pre := MatchScales(t, before, matcher);
    MatchScalesAppend(t, withS, after, matcher);
    MatchScalesAppend(t, before, [s], matcher);
    assert MatchScales(t, [s], matcher) == [] by {
      assert [s][1..] == [];
    }
    assert MatchScales(t, withS, matcher) == pre + [];
    assert pre + [] == pre;
  }

  /** A kind's positions are those of scale 0.8, then 1.0, then 1.2. */
  lemma ScaleOrder(t: Template, matcher: Matcher)
    ensures MatchScales(t, Scales, matcher)
         == Yield(matcher(t, 0.8)) + Yield(matcher(t, 1.0)) + Yield(matcher(t, 1.2))
  {
    var m := (s: real) => Yield(matcher(t, s));
    calc {
      MatchScales(t, Scales, matcher);
      m(0.8) + MatchScales(t, [1.0, 1.2], matcher);
      m(0.8) + (m(1.0) + MatchScales(t, [1.2], matcher));
      { assert [1.2][1..] == []; }
      m(0.8) + (m(1.0) + (m(1.2) + []));
    }
    assert m(0.8) + (m(1.0) + (m(1.2) + [])) == m(0.8) + m(1.0) + m(1.2);
  }

  /** `k1` is stored before `k2` in `d`. */
  ghost predicate Before<V>(d: seq<Entry<V>>, k1: string, k2: string) {
    exists i, j :: 0 <= i < j < |d| && d[i].key == k1 && d[j].key == k2
  }

  /** The dict of detections: one entry per kind that has a template, in the
      templates' order, holding the positions of all scales. */
  function DetectObjects(templates: seq<Entry<Option<Template>>>, matcher: Matcher)
    : (r: seq<Entry<seq<Point>>>)
    ensures |r| <= |templates|
  {
    if templates == [] then []
    else
      var rest := DetectObjects(templates[1..], matcher);
      match templates[0].value
      case None => rest
      case Some(t) => [Entry(templates[0].key, MatchScales(t, Scales, matcher))] + rest
  }

  /** Unfolding the result on a kind with a template: its entry comes first. */
  lemma DetectObjectsCons(templates: seq<Entry<Option<Template>>>, matcher: Matcher)
    requires templates != [] && templates[0].value.Some?
    ensures |DetectObjects(templates, matcher)| == |DetectObjects(templates[1..], matcher)| + 1
    ensures DetectObjects(templates, matcher)[0]
         == Entry(templates[0].key, MatchScales(templates[0].value.value, Scales, matcher))
    ensures forall b :: 1 <= b < |DetectObjects(templates, matcher)| ==>
              DetectObjects(templates, matcher)[b] == DetectObjects(templates[1..], matcher)[b - 1]
  {
  }

  /** Unfolding the result on a kind without a template: it is skipped. */
  lemma DetectObjectsSkip(templates: seq<Entry<Option<Template>>>, matcher: Matcher)
    requires templates != [] && templates[0].value.None?
    ensures DetectObjects(templates, matcher) == DetectObjects(templates[1..], matcher)
  {
  }

  /** Every entry of the result belongs to a kind that has a template, and
      holds that template's matches over all scales. */
  lemma {:induction false} DetectObjectsSound(templates: seq<Entry<Option<Template>>>, matcher: Matcher, a: int)
    requires 0 <= a < |DetectObjects(templates, matcher)|
    ensures var e := DetectObjects(templates, matcher)[a];
            exists i :: 0 <= i < |templates| && templates[i].key == e.key && templates[i].value.Some?
                        && e.value == MatchScales(templates[i].value.value, Scales, matcher)
  {
    var rest := DetectObjects(templates[1..], matcher);
    var e := DetectObjects(templates, matcher)[a];
    if templates[0].value.Some? && a == 0 {
      assert templates[0].key == e.key;
    } else {
      var a' := if templates[0].value.Some? then a - 1 else a;
      assert e == rest[a'];
      DetectObjectsSound(templates[1..], matcher, a');
      var i :| 0 <= i < |templates[1..]| && templates[1..][i].key == e.key && templates[1..][i].value.Some?
               && e.value == MatchScales(templates[1..][i].value.value, Scales, matcher);
      assert templates[i + 1] == templates[1..][i];
    }
  }

  /** Every kind in the result has a template. */
  lemma DetectedKindHasTemplate(templates: seq<Entry<Option<Template>>>, matcher: Matcher, a: int)
    requires 0 <= a < |DetectObjects(templates, matcher)|
    ensures exists i :: 0 <= i < |templates| && templates[i].key == DetectObjects(templates, matcher)[a].key
                        && templates[i].value.Some?
  {
    DetectObjectsSound(templates, matcher, a);
  }

  /** Every kind that has a template appears in the result. */
  lemma {:induction false} DetectObjectsComplete(templates: seq<Entry<Option<Template>>>, matcher: Matcher, i: int)
    requires 0 <= i < |templates| && templates[i].value.Some?
    ensures templates[i].key in Keys(DetectObjects(templates, matcher))
  {
    var r := DetectObjects(templates, matcher);
    var rest := DetectObjects(templates[1..], matcher);
    if i == 0 {
      assert r[0].key == templates[0].key;
    } else {
      DetectObjectsComplete(templates[1..], matcher, i - 1);
      var b :| 0 <= b < |rest| && Keys(rest)[b] == templates[i].key;
      if templates[0].value.Some? {
        assert r[b + 1] == rest[b];
      } else {
        assert r[b] == rest[b];
      }
    }
  }

  lemma BeforeInTail<V>(d: seq<Entry<V>>, k1: string, k2: string)
    requires d != [] && Before(d[1..], k1, k2)
    ensures Before(d, k1, k2)
  {
    var i, j :| 0 <= i < j < |d[1..]| && d[1..][i].key == k1 && d[1..][j].key == k2;
    assert d[i + 1].key == k1 && d[j + 1].key == k2;
  }

  lemma BeforeFromHead<V>(d: seq<Entry<V>>, j: int)
    requires 0 < j < |d|
    ensures Before(d, d[0].key, d[j].key)
  {
  }

  /** The result lists kinds in the templates' order. */
  lemma {:induction false} DetectObjectsOrder(templates: seq<Entry<Option<Template>>>, matcher: Matcher, a: int, b: int)
    requires 0 <= a < b < |DetectObjects(templates, matcher)|
    ensures Before(templates, DetectObjects(templates, matcher)[a].key, DetectObjects(templates, matcher)[b].key)
  {
    var r := DetectObjects(templates, matcher);
    var tail := templates[1..];
    var rest := DetectObjects(tail, matcher);
    if templates[0].value.Some? {
      DetectObjectsCons(templates, matcher);
      if a == 0 {
        DetectedKindHasTemplate(tail, matcher, b - 1);
        var j :| 0 <= j < |tail| && tail[j].key == rest[b - 1].key && tail[j].value.Some?;
        assert templates[j + 1] == tail[j];
        BeforeFromHead(templates, j + 1);
      } else {
        DetectObjectsOrder(tail, matcher, a - 1, b - 1);
        BeforeInTail(templates, rest[a - 1].key, rest[b - 1].key);
      }
    } else {
      DetectObjectsSkip(templates, matcher);
      DetectObjectsOrder(tail, matcher, a, b);
      BeforeInTail(templates, rest[a].key, rest[b].key);
    }
  }

  /** A kind whose template is missing never appears in the result. */
  lemma MissingTemplateSkipped(templates: seq<Entry<Option<Template>>>, matcher: Matcher, i: int)
    requires UniqueKeys(templates)
    requires 0 <= i < |templates| && templates[i].value.None?
    ensures templates[i].key !in Keys(DetectObjects(templates, matcher))
  {
    var r := DetectObjects(templates, matcher);
    forall a | 0 <= a < |r|
      ensures r[a].key != templates[i].key
    {
      DetectObjectsSound(templates, matcher, a);
      var i' :| 0 <= i' < |templates| && templates[i'].key == r[a].key && templates[i'].value.Some?;
      assert i' != i;
    }
  }

  /** Distinct template kinds give distinct detection kinds. */
  lemma DetectObjectsUniqueKeys(templates: seq<Entry<Option<Template>>>, matcher: Matcher)
    requires UniqueKeys(templates)
    ensures UniqueKeys(DetectObjects(templates, matcher))
  {
    var r := DetectObjects(templates, matcher);
    forall a, b | 0 <= a < b < |r|
      ensures r[a].key != r[b].key
    {
      DetectObjectsOrder(templates, matcher, a, b);
    }
  }

  /** The detections of one kind, in position order. */
  function KindDetections(kind: string, points: seq<Point>): (r: seq<Detection>)
    ensures |r| == |points|
    ensures forall j :: 0 <= j < |points| ==> r[j] == Detection(kind, points[j])
  {
    seq(|points|, j requires 0 <= j < |points| => Detection(kind, points[j]))
  }

  /** The number of positions held in a dict of detections. */
  function TotalPositions(d: seq<Entry<seq<Point>>>): nat {
    if d == [] then 0 else |d[0].value| + TotalPositions(d[1..])
  }

  /** Every detection of the dict, in kind order then position order. */
  function Flatten(d: seq<Entry<seq<Point>>>): (r: seq<Detection>)
    ensures |r| == TotalPositions(d)
  {
    if d == [] then [] else KindDetections(d[0].key, d[0].value) + Flatten(d[1..])
  }

  lemma {:induction false} FlattenAppend(a: seq<Entry<seq<Point>>>, b: seq<Entry<seq<Point>>>)
    ensures Flatten(a + b) == Flatten(a) + Flatten(b)
    ensures TotalPositions(a + b) == TotalPositions(a) + TotalPositions(b)
  {
    if a == [] {
      assert a + b == b;
    } else {
      assert (a + b)[0] == a[0];
      assert (a + b)[1..] == a[1..] + b;
      FlattenAppend(a[1..], b);
    }
  }

  /** Position `j` of the `i`-th kind sits right after all positions of the
      kinds before it. */
  lemma {:induction false} FlattenAt(d: seq<Entry<seq<Point>>>, i: int, j: int)
    requires 0 <= i < |d| && 0 <= j < |d[i].value|
    ensures TotalPositions(d[..i]) + j < |Flatten(d)|
    ensures Flatten(d)[TotalPositions(d[..i]) + j] == Detection(d[i].key, d[i].value[j])
  {
    var head := KindDetections(d[0].key, d[0].value);
    assert Flatten(d) == head + Flatten(d[1..]);
    if i == 0 {
      assert d[..0] == [];
    } else {
      var tail := d[1..];
      FlattenAt(tail, i - 1, j);
      assert d[..i][1..] == tail[..i - 1];
      assert TotalPositions(d[..i]) == |d[0].value| + TotalPositions(tail[..i - 1]);
      assert tail[i - 1] == d[i];
    }
  }

  /** A detection is flattened out iff its kind holds its position. */
  lemma {:induction false} FlattenMembership(d: seq<Entry<seq<Point>>>, x: Detection)
    ensures x in Flatten(d) <==> exists i :: 0 <= i < |d| && d[i].key == x.kind && x.at in d[i].value
  {
    if d != [] {
      FlattenMembership(d[1..], x);
      var kd := KindDetections(d[0].key, d[0].value);
      assert x in kd <==> d[0].key == x.kind && x.at in d[0].value by {
        if x in kd {
          var j :| 0 <= j < |kd| && kd[j] == x;
          assert d[0].value[j] == x.at;
        }
        if d[0].key == x.kind && x.at in d[0].value {
          var j :| 0 <= j < |d[0].value| && d[0].value[j] == x.at;
          assert kd[j] == x;
        }
      }
      assert forall i :: 1 <= i < |d| ==> d[i] == d[1..][i - 1];
    }
  }
}

=== FILE: dict.dfy ===
/**
  Python dictionaries keyed by object kind. A dict iterates in insertion
  order, so it is modelled as the sequence of its key/value pairs in that
  order; a dict never holds the same key twice.
 */
module Dict {
  import opened Wrappers

  /** One key/value pair of a dict. */
  datatype Entry<V> = Entry(key: string, value: V)

  /** The keys of a dict are pairwise distinct. */
  ghost predicate UniqueKeys<V>(d: seq<Entry<V>>) {
    forall i, j :: 0 <= i < j < |d| ==> d[i].key != d[j].key
  }

  /** The keys of `d`, in iteration order. */
  function Keys<V>(d: seq<Entry<V>>): (ks: seq<string>)
    ensures |ks| == |d|
    ensures forall i :: 0 <= i < |d| ==> ks[i] == d[i].key
  {
    if d == [] then [] else [d[0].key] + Keys(d[1..])
  }

  /** `d.get(k)`: the value stored under `k`, or None when `k` is absent. */
  function Get<V>(d: seq<Entry<V>>, k: string): (r: Option<V>)
    ensures r.None? <==> k !in Keys(d)
  {
    if d == [] then None
    else if d[0].key == k then Some(d[0].value)
    else
      assert Keys(d) == [d[0].key] + Keys(d[1..]);
      Get(d[1..], k)
  }

  /** In a dict with distinct keys, each key gets back the value stored with it. */
  lemma {:induction false} GetAt<V>(d: seq<Entry<V>>, i: int)
    requires UniqueKeys(d) && 0 <= i < |d|
    ensures Get(d, d[i].key) == Some(d[i].value)
  {
    if i > 0 {
      assert d[0].key != d[i].key;
      assert d[1..][i - 1] == d[i];
      GetAt(d[1..], i - 1);
    }
  }
}

=== FILE: export.dfy ===
/**
  The per-cycle snapshot written to `minimap_data.json`: placeholder player
  coordinates and one flat record per detected position.
 */
module Export {
  import opened Wrappers
  import opened Dict
  import opened Detection

  /** One element of `detected_objects`: `{"type": kind, "x": x, "y": y}`. */
  datatype ObjectRecord = ObjectRecord(kind: string, x: int, y: int)

  /** The whole exported document. */
  datatype Snapshot = Snapshot(playerX: int, playerY: int, detectedObjects: seq<ObjectRecord>)

  /** Placeholder player coordinates, written whatever was detected. */
  const PlaceholderPlayerX: int := 100
  const PlaceholderPlayerY: int := 50

  function ToRecord(det: Detection): ObjectRecord {
    ObjectRecord(det.kind, det.at.x, det.at.y)
  }

  function Records(ds: seq<Detection>): (r: seq<ObjectRecord>)
    ensures |r| == |ds|
    ensures forall n :: 0 <= n < |ds| ==> r[n] == ToRecord(ds[n])
  {
    seq(|ds|, n requires 0 <= n < |ds| => ToRecord(ds[n]))
  }

  /** The snapshot of a dict of detections, as a reference definition. */
  function SnapshotOf(d: seq<Entry<seq<Point>>>): Snapshot {
    Snapshot(PlaceholderPlayerX, PlaceholderPlayerY, Records(Flatten(d)))
  }

  lemma RecordsAppend(a: seq<Detection>, b: seq<Detection>)
    ensures Records(a + b) == Records(a) + Records(b)
  {
  }

  /** Position `j` of the `i`-th kind is exported, as `{type, x, y}`, right
      after the records of all kinds before it. */
  lemma SnapshotRecordAt(d: seq<Entry<seq<Point>>>, i: int, j: int)
    requires 0 <= i < |d| && 0 <= j < |d[i].value|
    ensures TotalPositions(d[..i]) + j < |SnapshotOf(d).detectedObjects|
    ensures SnapshotOf(d).detectedObjects[TotalPositions(d[..i]) + j]
         == ObjectRecord(d[i].key, d[i].value[j].x, d[i].value[j].y)
  {
    FlattenAt(d, i, j);
  }

  /** Adding the `i`-th kind to the walked prefix appends its records. */
  lemma RecordsStep(d: seq<Entry<seq<Point>>>, i: int)
    requires 0 <= i < |d|
    ensures Records(Flatten(d[..i + 1])) == Records(Flatten(d[..i])) + Records(KindDetections(d[i].key, d[i].value))
  {
    assert d[..i + 1] == d[..i] + [d[i]];
    FlattenAppend(d[..i], [d[i]]);
    assert Flatten([d[i]]) == KindDetections(d[i].key, d[i].value) by {
      assert [d[i]][1..] == [];
    }
    RecordsAppend(Flatten(d[..i]), KindDetections(d[i].key, d[i].value));
  }

  /** The inner loop: one record appended per position of one kind. */
  method AppendKind(records: seq<ObjectRecord>, kind: string, points: seq<Point>) returns (out: seq<ObjectRecord>)
    ensures out == records + Records(KindDetections(kind, points))
  {
    out := records;
    var j := 0;
    while j < |points|
      invariant 0 <= j <= |points|
      invariant out == records + Records(KindDetections(kind, points[..j]))
    {
      assert Records(KindDetections(kind, points[..j + 1]))
          == Records(KindDetections(kind, points[..j])) + [ObjectRecord(kind, points[j].x, points[j].y)];
      out := out + [ObjectRecord(kind, points[j].x, points[j].y)];
      j := j + 1;
    }
    assert points[..j] == points;
  }

  /** Builds the snapshot the way the capture loop does: one record appended
      per position, kind after kind. */
  method ExportSnapshot(d: seq<Entry<seq<Point>>>) returns (s: Snapshot)
    ensures s == SnapshotOf(d)
    ensures s.playerX == 100 && s.playerY == 50
    ensures |s.detectedObjects| == TotalPositions(d)
  {
    var records: seq<ObjectRecord> := [];
    var i := 0;
    while i < |d|
      invariant 0 <= i <= |d|
      invariant records == Records(Flatten(d[..i]))
    {
      records := AppendKind(records, d[i].key, d[i].value);
      RecordsStep(d, i);
      i := i + 1;
    }
    assert d[..i] == d;
    s := Snapshot(PlaceholderPlayerX, PlaceholderPlayerY, records);
  }

  /** The number of records of kind `k`. */
  function CountKind(records: seq<ObjectRecord>, k: string): nat {
    if records == [] then 0
    else (if records[0].kind == k then 1 else 0) + CountKind(records[1..], k)
  }

  lemma {:induction false} CountKindAppend(a: seq<ObjectRecord>, b: seq<ObjectRecord>, k: string)
    ensures CountKind(a + b, k) == CountKind(a, k) + CountKind(b, k)
  {
    if a == [] {
      assert a + b == b;
    } else {
      assert (a + b)[1..] == a[1..] + b;
      CountKindAppend(a[1..], b, k);
    }
  }

  lemma {:induction false} CountOneKind(kind: string, points: seq<Point>, k: string)
    ensures CountKind(Records(KindDetections(kind, points)), k) == if kind == k then |points| else 0
  {
    if points != [] {
      var rs := Records(KindDetections(kind, points));
      assert rs[1..] == Records(KindDetections(kind, points[1..]));
      CountOneKind(kind, points[1..], k);
    }
  }

  /** With distinct kinds, the snapshot holds exactly as many records of a kind
      as that kind has positions (none for a kind that is absent). */
  lemma {:induction false} ExportCountPerKind(d: seq<Entry<seq<Point>>>, k: string)
    requires UniqueKeys(d)
    ensures CountKind(SnapshotOf(d).detectedObjects, k) == |Get(d, k).GetOr([])|
  {
    if d != [] {
      var head := KindDetections(d[0].key, d[0].value);
      assert Records(Flatten(d)) == Records(head) + Records(Flatten(d[1..]));
      CountKindAppend(Records(head), Records(Flatten(d[1..])), k);
      CountOneKind(d[0].key, d[0].value, k);
      ExportCountPerKind(d[1..], k);
      if d[0].key == k {
        assert k !in Keys(d[1..]) by {
          forall a | 0 <= a < |d[1..]|
            ensures Keys(d[1..])[a] != k
          {
            assert d[1..][a] == d[a + 1];
          }
        }
      }
    }
  }
}

=== FILE: login_actions.dfy ===
/** The keyboard and mouse steps the login script takes. */
module Login {

  /** One keyboard or mouse step of a login entry. */
  datatype Action =
    | TypeText(text: string)      // the whole text typed in one write
    | ClickKey(key: char)         // the key's image was located and clicked
    | AwaitManualKey(key: char)   // the key's image is missing or was not located: the user clicks it
    | TypeChar(c: char)           // one character typed
    | ClickOK                     // the OK button was located and clicked
    | AwaitManualOK               // the OK button was not located: the user clicks it
    | PressEnter
    | AwaitManualOtp              // no one-time-password secret: the user types the code
}

=== FILE: otp_entry.dfy ===
/**
  The one-time-password step of the login: with a secret, the current code is
  generated, typed and submitted with Enter; without one, the user is given
  time to type it.
 */
module OtpEntry {
  import opened Wrappers
  import opened Credentials
  import opened Login

  /** The steps taken once the one-time-password dialog has been waited for;
      `totp` stands for the generator and yields None when it raises, in
      which case nothing is typed and Enter is not pressed. */
  function OtpEntry(secret: Option<string>, totp: string -> Option<string>): (r: seq<Action>)
    ensures |r| <= 2
    ensures r == [AwaitManualOtp] <==> Blank(secret)
    ensures PressEnter in r <==> !Blank(secret) && totp(secret.value).Some?
    ensures !Blank(secret) && totp(secret.value).None? ==> r == []
  {
    if Blank(secret) then [AwaitManualOtp]
    else
      match totp(secret.value)
      case None => []
      case Some(code) => [TypeText(code), PressEnter]
  }

  /** The login's own guard agrees with the `get_current_otp` helper: the code
      is submitted exactly when the helper would return one, and it is that
      code that is typed; otherwise nothing is typed. */
  lemma OtpEntryAgreesWithGetCurrentOtp(secret: Option<string>, totp: string -> Option<string>)
    ensures PressEnter in OtpEntry(secret, totp) <==> GetCurrentOtp(secret, totp).Some?
    ensures GetCurrentOtp(secret, totp).Some? ==>
              OtpEntry(secret, totp) == [TypeText(GetCurrentOtp(secret, totp).value), PressEnter]
    ensures GetCurrentOtp(secret, totp).None? ==> forall a :: a in OtpEntry(secret, totp) ==> !a.TypeText?
  {
  }
}

=== FILE: polling.dfy ===
/**
  The bounded waits for a screen to appear: a fixed number of attempts to
  locate an image, stopping at the first success, with a pause after every
  failed attempt.
 */
module Polling {

  /** Attempts made to find the login screen. */
  const LoginScreenAttempts: nat := 5

  /** Attempts made to find the one-time-password dialog. */
  const OtpDialogAttempts: nat := 3

  /** Attempts made to find the second-password dialog. */
  const SecondPasswordDialogAttempts: nat := 3

  /** Polls up to `limit` times; `results[k]` says whether attempt `k` located
      the image (the file exists, the match succeeded, nothing was raised).
      Returns whether it was found, how many attempts were made and how many
      pauses were taken. */
  method Poll(limit: nat, results: seq<bool>) returns (found: bool, attempts: nat, pauses: nat)
    requires |results| >= limit
    ensures found <==> exists k :: 0 <= k < limit && results[k]
    ensures 1 <= attempts <= limit || (limit == 0 && attempts == 0)
    ensures found ==> results[attempts - 1] && forall k :: 0 <= k < attempts - 1 ==> !results[k]
    ensures !found ==> attempts == limit
    ensures pauses == if found then attempts - 1 else attempts
  {
    found, attempts, pauses := false, 0, 0;
    while attempts < limit
      invariant 0 <= attempts <= limit
      invariant forall k :: 0 <= k < attempts ==> !results[k]
      invariant pauses == attempts
    {
      if results[attempts] {
        found := true;
        attempts := attempts + 1;
        return;
      }
      attempts := attempts + 1;
      pauses := pauses + 1;
    }
  }

  /** The login-screen wait stops at the first success and tries all five
      times when the screen never appears; the dialog waits do the same with
      three attempts. */
  method PollLoginScreen(results: seq<bool>) returns (found: bool, attempts: nat)
    requires |results| >= LoginScreenAttempts
    ensures 1 <= attempts <= 5
    ensures found <==> exists k :: 0 <= k < 5 && results[k]
    ensures found ==> results[attempts - 1] && forall k :: 0 <= k < attempts - 1 ==> !results[k]
    ensures !found ==> attempts == 5
  {
    var pauses;
    found, attempts, pauses := Poll(LoginScreenAttempts, results);
  }

  method PollOtpDialog(results: seq<bool>) returns (found: bool, attempts: nat)
    requires |results| >= OtpDialogAttempts
    ensures 1 <= attempts <= 3
    ensures found <==> exists k :: 0 <= k < 3 && results[k]
    ensures found ==> results[attempts - 1] && forall k :: 0 <= k < attempts - 1 ==> !results[k]
    ensures !found ==> attempts == 3
  {
    var pauses;
    found, attempts, pauses := Poll(OtpDialogAttempts, results);
  }

  method PollSecondPasswordDialog(results: seq<bool>) returns (found: bool, attempts: nat)
    requires |results| >= SecondPasswordDialogAttempts
    ensures 1 <= attempts <= 3
    ensures found <==> exists k :: 0 <= k < 3 && results[k]
    ensures found ==> results[attempts - 1] && forall k :: 0 <= k < attempts - 1 ==> !results[k]
    ensures !found ==> attempts == 3
  {
    var pauses;
    found, attempts, pauses := Poll(SecondPasswordDialogAttempts, results);
  }
}

=== FILE: region.dfy ===
/**
  Minimap region selection: among the bounding boxes of the contours found in
  the first capture, the first box whose shape looks like a minimap becomes the
  capture region; otherwise the coarse initial region is kept.
 */
module Region {

  type Positive = n: int | n >= 1 witness 1

  /** A contour's bounding box relative to the initial region: `x, y, w, h`.
      A bounding box of a non-empty contour is never zero pixels high. */
  datatype BoundingRect = BoundingRect(x: int, y: int, w: nat, h: Positive)

  /** A capture rectangle in screen coordinates. */
  datatype Region = Region(top: int, left: int, width: int, height: int)

  /** `2.0 < w / h < 4.0`, with exact division. */
  predicate AspectRatioOk(r: BoundingRect) {
    2.0 < (r.w as real) / (r.h as real) < 4.0
  }

  /** The shape filter a contour must pass to be taken for the minimap. */
  predicate Qualifies(r: BoundingRect) {
    AspectRatioOk(r) && 50 < r.w < 250 && 30 < r.h < 150
  }

  /** The bounding box moved from initial-region to screen coordinates. */
  function Translate(initial: Region, r: BoundingRect): Region {
    Region(initial.top + r.y, initial.left + r.x, r.w, r.h)
  }

  /** `i` indexes the first contour that passes the filter. */
  ghost predicate IsFirstQualifying(contours: seq<BoundingRect>, i: int) {
    && 0 <= i < |contours|
    && Qualifies(contours[i])
    && forall j :: 0 <= j < i ==> !Qualifies(contours[j])
  }

  /** Comparing a quotient with a constant is comparing the dividend with the
      scaled divisor. */
  lemma QuotientBounds(w: real, h: real, c: real)
    requires h > 0.0
    ensures c < w / h <==> c * h < w
    ensures w / h < c <==> w < c * h
  {
    var q := w / h;
    assert q * h == w;
    if c < q {
      assert (q - c) * h > 0.0;
    } else {
      assert (c - q) * h >= 0.0;
    }
    if q < c {
      assert (c - q) * h > 0.0;
    } else {
      assert (q - c) * h >= 0.0;
    }
  }

  /** The aspect-ratio test on reals is exactly the integer test `2h < w < 4h`. */
  lemma AspectRatioInIntegers(r: BoundingRect)
    ensures AspectRatioOk(r) <==> 2 * r.h < r.w < 4 * r.h
  {
    var w, h := r.w as real, r.h as real;
    QuotientBounds(w, h, 2.0);
    QuotientBounds(w, h, 4.0);
    assert 2.0 * h < w <==> 2 * r.h < r.w;
    assert w < 4.0 * h <==> r.w < 4 * r.h;
  }

  /** The region to capture, found by scanning the contours in order. */
  method DetectMinimapRegion(initial: Region, contours: seq<BoundingRect>) returns (region: Region)
    ensures forall i :: IsFirstQualifying(contours, i) ==> region == Translate(initial, contours[i])
    ensures (forall i :: 0 <= i < |contours| ==> !Qualifies(contours[i])) ==> region == initial
    ensures (exists i :: 0 <= i < |contours| && Qualifies(contours[i])) ==>
              && 50 < region.width < 250 && 30 < region.height < 150
              && 2 * region.height < region.width < 4 * region.height
  {
    var i := 0;
    while i < |contours|
      invariant 0 <= i <= |contours|
      invariant forall j :: 0 <= j < i ==> !Qualifies(contours[j])
    {
      var r := contours[i];
      if Qualifies(r) {
        AspectRatioInIntegers(r);
        assert IsFirstQualifying(contours, i);
        assert forall k :: IsFirstQualifying(contours, k) ==> k == i;
        return Translate(initial, r);
      }
      i := i + 1;
    }
    return initial;
  }
}

=== FILE: second_password.dfy ===
/**
  Entering the second password: each character is either clicked on the game's
  on-screen keyboard or typed, depending on which character classes the
  password contains; Enter is pressed at the end whatever happened.
 */
module SecondPassword {
  import opened Chars
  import opened Login

  /** Whether a lookup of an image finds it on screen: the file exists and
      the screen grab of that lookup matches it without error. Every lookup
      grabs the screen afresh, so `located(n, image)` is the outcome of the
      lookup made for character position `n` of the password (position
      `|password|` for the OK button); this stands for the file system and the
      screen matcher. */
  type Locator = (nat, string) -> bool

  /** The reference image of an on-screen key. */
  function KeyImage(c: char): string {
    "images/2nd_pw_" + [c] + ".png"
  }

  /** The reference image of the OK button. */
  const OkImage: string := "images/2nd_pw_OK.png"

  /** The step for key `c`, looked up for character position `n`. */
  function KeyStep(c: char, n: nat, located: Locator): Action {
    if located(n, KeyImage(c)) then ClickKey(c) else AwaitManualKey(c)
  }

  /** The step for the OK button, looked up after `n` characters. */
  function OkStep(n: nat, located: Locator): Action {
    if located(n, OkImage) then ClickOK else AwaitManualOK
  }

  /** The character a per-character step is about. */
  function KeyOf(a: Action): char
    requires a.ClickKey? || a.AwaitManualKey? || a.TypeChar?
  {
    match a
    case ClickKey(k) => k
    case AwaitManualKey(k) => k
    case TypeChar(c) => c
  }

  /** The mixed path: letters and digits go through the on-screen keyboard,
      every other character is typed; one step per character, in order.
      `text` starts at character position `first` of the password. */
  function MixedKeys(text: string, first: nat, located: Locator): (r: seq<Action>)
    ensures |r| == |text|
    ensures forall i :: 0 <= i < |text| ==>
              && (r[i].ClickKey? || r[i].AwaitManualKey? || r[i].TypeChar?)
              && KeyOf(r[i]) == text[i]
              && (r[i].TypeChar? <==> !IsAlnum(text[i]))
              && (r[i].ClickKey? <==> IsAlnum(text[i]) && located(first + i, KeyImage(text[i])))
  {
    if text == [] then []
    else
      var c := text[0];
      var step := if IsAlnum(c) then KeyStep(c, first, located) else TypeChar(c);
      var rest := MixedKeys(text[1..], first + 1, located);
      assert forall i :: 1 <= i < |text| ==> text[i] == text[1..][i - 1];
      [step] + rest
  }

  /** The key clicks of the on-screen keyboard: one key per character, in
      order, whatever the character is. `text` starts at character position
      `first` of the password. */
  function KeyboardKeys(text: string, first: nat, located: Locator): (r: seq<Action>)
    ensures |r| == |text|
    ensures forall i :: 0 <= i < |text| ==>
              && (r[i].ClickKey? || r[i].AwaitManualKey?)
              && KeyOf(r[i]) == text[i]
              && (r[i].ClickKey? <==> located(first + i, KeyImage(text[i])))
  {
    if text == [] then []
    else
      var rest := KeyboardKeys(text[1..], first + 1, located);
      assert forall i :: 1 <= i < |text| ==> text[i] == text[1..][i - 1];
      [KeyStep(text[0], first, located)] + rest
  }

  /** Typing with the on-screen keyboard: every key, then the OK button. */
  function TypeUsingOnscreenKeyboard(text: string, located: Locator): (r: seq<Action>)
    ensures |r| == |text| + 1
    ensures r[|text|] == OkStep(|text|, located)
    ensures r[..|text|] == KeyboardKeys(text, 0, located)
  {
    KeyboardKeys(text, 0, located) + [OkStep(|text|, located)]
  }

  /** On a password of letters and digits only, the mixed path and the
      keyboard path click the same keys. */
  lemma {:induction false} MixedAgreesWithKeyboard(text: string, first: nat, located: Locator)
    requires forall i :: 0 <= i < |text| ==> IsAlnum(text[i])
    ensures MixedKeys(text, first, located) == KeyboardKeys(text, first, located)
  {
    if text != [] {
      assert forall i :: 0 <= i < |text[1..]| ==> text[1..][i] == text[i + 1];
      MixedAgreesWithKeyboard(text[1..], first + 1, located);
    }
  }

  /** Each occurrence of a key is looked up afresh: the same key can be
      clicked once and left to the user the next time. */
  lemma RepeatedKeyLookedUpAfresh()
    ensures MixedKeys("a!a", 0, (n: nat, image: string) => n == 0)
         == [ClickKey('a'), TypeChar('!'), AwaitManualKey('a')]
  {
    var located := (n: nat, image: string) => n == 0;
    var r := MixedKeys("a!a", 0, located);
    assert IsAlnum('a') && !IsAlnum('!');
    assert r[0] == ClickKey('a') && r[1] == TypeChar('!') && r[2] == AwaitManualKey('a');
  }

  /** What is entered before the final Enter: the password typed whole, its
      characters clicked or typed one by one, or nothing. */
  function EntryBeforeEnter(password: string, located: Locator): (r: seq<Action>)
    ensures forall i :: 0 <= i < |r| ==> r[i] != PressEnter
  {
    if ContainsOnlySpecialCharacters(password) then [TypeText(password)]
    else if ContainsLettersOrNumbers(password) then
      if HasNonAlnum(password) then MixedKeys(password, 0, located) + [OkStep(|password|, located)]
      else TypeUsingOnscreenKeyboard(password, located)
    else []
  }

  /** The whole entry, ending with Enter. */
  function SecondPasswordEntry(password: string, located: Locator): (r: seq<Action>)
    ensures |r| >= 1 && r[|r| - 1] == PressEnter
    ensures forall i :: 0 <= i < |r| - 1 ==> r[i] != PressEnter
    ensures (forall i :: 0 <= i < |password| ==> password[i] in SpecialChars) ==>
              r == [TypeText(password), PressEnter]
    ensures (&& (exists i :: 0 <= i < |password| && IsAlnum(password[i]))
             && (exists i :: 0 <= i < |password| && !IsAlnum(password[i]))) ==>
              r == MixedKeys(password, 0, located) + [OkStep(|password|, located), PressEnter]
    ensures password != [] && (forall i :: 0 <= i < |password| ==> IsAlnum(password[i])) ==>
              r == TypeUsingOnscreenKeyboard(password, located) + [PressEnter]
    ensures (&& (exists i :: 0 <= i < |password| && password[i] !in SpecialChars)
             && (forall i :: 0 <= i < |password| ==> !IsAlnum(password[i]))) ==>
              r == [PressEnter]
  {
    NeverBoth(password);
    var typed := EntryBeforeEnter(password, located);
    assert MixedKeys(password, 0, located) + [OkStep(|password|, located)] + [PressEnter]
        == MixedKeys(password, 0, located) + [OkStep(|password|, located), PressEnter];
    typed + [PressEnter]
  }

  /** A non-empty password of spaces is neither special nor alphanumeric:
      nothing is entered before Enter. */
  lemma SpacesEnterNothing(password: string, located: Locator)
    requires |password| > 0 && forall i :: 0 <= i < |password| ==> password[i] == ' '
    ensures SecondPasswordEntry(password, located) == [PressEnter]
  {
    SpecialCharsContents();
    assert password[0] !in SpecialChars;
  }
}

=== FILE: templates.dfy ===
/** Template loading: one entry per configured object kind, in configuration order. */
module Templates {
  import opened Wrappers
  import opened Dict

  /** A template image as read from disk: its shape and its pixels. */
  datatype Template = Template(height: nat, width: nat, pixels: seq<int>)

  /** The configured object kinds and their template files. */
  const TemplatePaths: seq<Entry<string>> := [
    Entry("friend", "friend_template.png"),
    Entry("player", "player_template.png"),
    Entry("rune", "rune_template.png"),
    Entry("guild", "guild_template.png"),
    Entry("people", "people_template.png")
  ]

  /** The template stored for one path: absent when the file does not exist,
      otherwise whatever the image reader returned (None when unreadable). */
  function LoadOne(path: string, fileExists: string -> bool, imread: string -> Option<Template>): Option<Template> {
    if fileExists(path) then imread(path) else None
  }

  /** Reads every configured template; `fileExists` and `imread` stand for the
      file-system probe and the image decoder. */
  function LoadTemplates(paths: seq<Entry<string>>, fileExists: string -> bool, imread: string -> Option<Template>)
    : (r: seq<Entry<Option<Template>>>)
    ensures |r| == |paths|
    ensures forall i :: 0 <= i < |r| ==> r[i].key == paths[i].key
    ensures forall i :: 0 <= i < |r| ==>
              (r[i].value.Some? <==> fileExists(paths[i].value) && imread(paths[i].value).Some?)
    ensures forall i :: 0 <= i < |r| && r[i].value.Some? ==> r[i].value == imread(paths[i].value)
  {
    if paths == [] then []
    else
      var rest := LoadTemplates(paths[1..], fileExists, imread);
      var r := [Entry(paths[0].key, LoadOne(paths[0].value, fileExists, imread))] + rest;
      r
  }

  lemma LoadedKeys(paths: seq<Entry<string>>, fileExists: string -> bool, imread: string -> Option<Template>)
    ensures Keys(LoadTemplates(paths, fileExists, imread)) == Keys(paths)
  {
  }

  /** No kind is configured twice. */
  lemma ConfiguredKindsDistinct()
    ensures UniqueKeys(TemplatePaths)
  {
    var ks := Keys(TemplatePaths);
    assert ks[0] == "friend" && ks[1] == "player" && ks[2] == "rune" && ks[3] == "guild" && ks[4] == "people";
  }

  /** Whatever the file system holds, the loaded dict has exactly the
      configured kinds, each once, in configuration order. */
  lemma LoadedKinds(fileExists: string -> bool, imread: string -> Option<Template>)
    ensures Keys(LoadTemplates(TemplatePaths, fileExists, imread)) == Keys(TemplatePaths)
    ensures UniqueKeys(LoadTemplates(TemplatePaths, fileExists, imread))
  {
    LoadedKeys(TemplatePaths, fileExists, imread);
    ConfiguredKindsDistinct();
  }
}

=== FILE: wrappers.dfy ===
/** Optional values: Python's `None` versus a present value. */
module Wrappers {

  datatype Option<+T> = None | Some(value: T) {

    /** The encapsulated value, or `default` when there is none. */
    function GetOr(default: T): T {
      match this
      case Some(v) => v
      case None => default
    }
  }
}
